=== FILE: README.md ===
# OrgFlow server schema, modelled in Dafny

This project models the GraphQL mutations and resolvers of the OrgFlow task
board's backend (`backend/core/schema.py`). The ORM is replaced by an
in-memory store. The store is a set of maps from primary key to row, for
users, organizations (name, slug, optional owner, member set), projects and
tasks (status, description, assignee email, due date, comments in order).
Each mutation or resolver is a pure function. It takes the store, the
current user and the arguments. A mutation returns a `Reply`: the store
afterwards, plus either its result or the exception it raised. So "an error
changes nothing" is a real contract and not a fact of the types. The current
user is an `Option<Id>`, where `None` is an anonymous request.

Files:
- `wrappers.dfy`: `Option` and `Result`.
- `store.dfy` (module `Store`): the rows and the store. Also the ORM's
  `get(slug=…)` lookup with its `DoesNotExist` and `MultipleObjectsReturned`
  errors, foreign-key traversal, key allocation, and the store invariant
  `Valid`. `Valid` means foreign keys resolve, comment authors are stored
  users, usernames are unique and slugs are unique.
- `schema.dfy` (module `Schema`): `IsAdmin` and `ResolveIsAdmin` (`resolve_is_admin`),
  `TaskCount` and `CompletionRate`, `ResolveProject`, `Register`,
  `CreateProject`, `UpdateTask` and `AddComment`.
- `properties.dfy` (module `Properties`): lemmas that relate the operations
  to each other and to `Valid`.

Observations the model makes explicit:
- The admin flag is `owner == current user`. An anonymous user never equals
  a stored user, so an organization without an owner has no admin. Yet
  `UpdateTask`'s gate lets anyone assign in such an organization, anonymous
  requests included (`AnyoneMayAssignInOwnerlessOrganization`).
- `UpdateTask` checks permission only for assignment. Status, description
  and due-date changes succeed for any caller, anonymous included.
  `CreateProject` checks nothing at all.
- `Register` saves the user before it looks up the organization. If that
  lookup found several organizations with the slug, the exception would
  leave the new user stored. `Register` keeps slugs unique, so this cannot
  happen from a valid store (`ValidRegisterFailsOnlyOnUsername`).
- Task statuses are unvalidated strings: any non-empty status string is
  stored as given.
- The server enforces the assignment restriction, but its gate admits more
  callers than the admin flag does.
- Following a foreign key that names no stored row raises DoesNotExist.
  This covers a task's project, the project's organization and the
  organization's owner. `Valid` rules all of these out.

Key allocation: the database hands out keys. The model uses one past the
largest key in use (`Store.FreshKey`). That is an auto-increment sequence
with no deletions, and nothing in this core deletes.

## Model

| member | source | states |
|---|---|---|
| Store.OrganizationBySlug | backend/core/schema.py:125-130 | `get(slug=…)` returns the one organization with that slug. It raises DoesNotExist exactly when none has the slug, and MultipleObjectsReturned exactly when two distinct ones have it |
| Store.OrganizationOfTask | backend/core/schema.py:174 | `task.project.organization` resolves exactly when both foreign keys resolve, and then it is the project's organization. A dangling project key raises DoesNotExist for projects. A stored project with a dangling organization key raises DoesNotExist for organizations |
| Schema.ResolveIsAdmin | backend/core/schema.py:26-28 | a dangling owner key raises DoesNotExist. Otherwise the flag is set exactly when the organization has an owner and the assignment gate admits the caller. An anonymous caller is never admin |
| Schema.TaskCount | backend/core/schema.py:48-49 | the count is at most the number of stored tasks. It is 0 exactly when no task belongs to the project, and it equals the number of stored tasks exactly when every task belongs to it |
| Schema.CompletionRate | backend/core/schema.py:51-55 | the rate is 0 for a project with no tasks and always lies in [0, 100]. It is 100 exactly when the project has tasks and all are DONE, and 0 exactly when none is DONE |
| Schema.ResolveProject | backend/core/schema.py:84-96 | an anonymous caller gets "Not logged in" even for a missing project. A missing project gives no project and no error. For an existing project whose organization is stored, a member gets that project and anyone else gets "Access Denied". A dangling organization key raises DoesNotExist |
| Schema.Register | backend/core/schema.py:115-140 | a username in use raises "Username already exists" and nothing is stored. An unused empty username raises "The given username must be set" and nothing is stored. If the slug matches several organizations, MultipleObjectsReturned is raised and exactly the new user is left stored under a fresh key. Otherwise a fresh user is stored and joins the organization whose slug is `slugify(name)`. An existing organization keeps its name, slug and owner and gains the user as a member. A new one is created, only when no organization has the slug, with the user as owner and sole member. No project or task changes |
| Schema.NormalizeDueDate | backend/core/schema.py:153 | an empty due date becomes none, and any other value is kept |
| Schema.CreateProject | backend/core/schema.py:151-155 | an unknown or ambiguous slug raises the lookup error and stores nothing. Otherwise exactly one project is added under a fresh key, in the organization with that slug, with the given name and description and the normalized due date |
| Schema.ApplyUpdate | backend/core/schema.py:176-180 | the updated task keeps project, title and comments. Every field not supplied keeps its value, and an empty status counts as not supplied. Every supplied field takes the supplied value, and an empty due date clears the date |
| Schema.UpdateTask | backend/core/schema.py:167-183 | a missing task raises DoesNotExist. Without an assignee the update always succeeds. With one, a dangling project, organization or owner key raises DoesNotExist for that table. Otherwise the gate `MayAssign` (an owner is set and the caller is not that owner means refusal) decides: the update succeeds exactly when the caller is admin or the organization has no owner, and otherwise raises the admin-only error. Any error leaves the store unchanged. Success changes only that task, by ApplyUpdate's field rules |
| Schema.AddComment | backend/core/schema.py:213-226 | an anonymous caller is refused with "You must be logged in to comment." and a missing task raises DoesNotExist. Either error leaves the store unchanged. Success appends exactly one comment to that task, with the given content and the caller as author. Every other task, field and table is unchanged |
| Properties.AssignGateIsAdminOrUnowned | backend/core/schema.py:26-28 | the assignment gate admits a caller exactly when the admin flag is set or the organization has no owner, so being admin always suffices |
| Properties.AnyoneMayAssignInOwnerlessOrganization | backend/core/schema.py:172-176 | in any store, for a task of an ownerless organization, the admin flag is false for every caller, yet every caller's assignment succeeds, anonymous ones included |
| Properties.NonOwnerAssignmentRefused | backend/core/schema.py:172-175 | a non-admin's assignment in an owned organization returns the store unchanged. The error is the admin-only one, or DoesNotExist when the owner key names no stored user |
| Properties.ApplyUpdateIdempotent | backend/core/schema.py:176-180 | applying the same field update twice gives the same task as applying it once |
| Properties.UpdateTaskIdempotent | backend/core/schema.py:167-183 | repeating a successful update with the same arguments succeeds and returns the same task and store |
| Properties.UpdateTaskKeepsTaskCounts | backend/core/schema.py:48-49 | no update changes any project's task count |
| Properties.MarkingDoneNeverLowersCompletion | backend/core/schema.py:51-55 | an update setting status to DONE never lowers any project's completion rate |
| Properties.UpdateWithoutStatusKeepsCompletion | backend/core/schema.py:178 | an update that supplies no status, or an empty one, leaves every completion rate unchanged |
| Properties.AddCommentKeepsCompletion | backend/core/schema.py:221-225 | commenting changes no project's task count or completion rate |
| Properties.CommentsAccumulateInOrder | backend/core/schema.py:221-225 | two comments on an existing task both succeed and are appended after the earlier comments, in order |
| Properties.RegisterTwiceRefused | backend/core/schema.py:117-118 | after a successful registration, registering the same username again raises "Username already exists" and changes nothing |
| Properties.RegisteredUserSeesOrganizationProjects | backend/core/schema.py:133 | a newly registered user can open every project of the organization they joined |
| Properties.CreatedProjectVisibleToMembers | backend/core/schema.py:92-94 | a newly created project resolves for members of its organization and is "Access Denied" for everyone else |
| Properties.ValidRegisterFailsOnlyOnUsername | backend/core/schema.py:125-130 | from a valid store, registration succeeds exactly when the username is non-empty and unused |
| Properties.ValidUpdateFailsOnlyAtGate | backend/core/schema.py:168-175 | from a valid store, updating an existing task fails only through the admin-only error, and only when an assignee was supplied |
| Properties.RegisterKeepsUsernamesUnique | backend/core/schema.py:117-120 | registration keeps usernames unique |
| Properties.RegisterKeepsSlugsUnique | backend/core/schema.py:127-130 | registration keeps organization slugs unique |
| Properties.RegisterKeepsReferences | backend/core/schema.py:130-133 | after registration every owner and member reference still names a stored user |
| Properties.RegisterPreservesValid | backend/core/schema.py:115-134 | registration keeps the store valid |
| Properties.CreateProjectPreservesValid | backend/core/schema.py:152-154 | creating a project keeps the store valid |
| Properties.UpdateTaskPreservesValid | backend/core/schema.py:176-182 | updating a task keeps the store valid |
| Properties.AddCommentPreservesValid | backend/core/schema.py:218-225 | commenting keeps the store valid, including that every comment's author is a stored user, provided an authenticated caller is a stored user |

## Left out

- `UpdateProject`, `CreateTask`, `resolve_me`, `resolve_my_organization`, `resolve_all_organizations` and `resolve_projects`: outside the modelled core. `CreateTask` also depends on field defaults that are not part of this model.
- The JWT mutations (`token_auth`, `verify_token`, `refresh_token`) and the token that `Register` returns: they come from a foreign library. `Register` returns the user and organization keys only.
- Schema.Register: stores the username as given. `create_user` stores its Unicode NFKC normal form, a framework normalization the model does not define. The model does check the empty username and raise the same error as `create_user`.
- Schema.CreateProject: an explicit `description: null` is not modelled, because its outcome depends on the column definition, which is not part of this model. It would either store NULL or raise an integrity error after the organization lookup. The description is always a string, and an omitted one is "".
- Comment order: comments are kept per task in creation order. The order in which comment rows are read back is set by the comment model's ordering, which is not part of this model.
- Passwords: `create_user` hashes the password in the framework, so the model takes no password and stores none. Email normalization by `create_user` is not modelled either. The email is stored as given.
- `slugify`: a framework function whose body is not visible. It is a parameter of `Register`.
- The GraphQL type and field declarations: they are schema plumbing, not logic.
- Persistence and the ORM: in-memory maps stand in for them. Transactions are not modelled, so each ORM write takes effect when it happens, as with autocommit.
- Comment timestamps and comment keys: they come from the clock and the database. A comment is its content and author.
- Due dates are strings stored as given. The parsing and validation a date column applies when it saves is not visible and not modelled.
- Schema.CompletionRate: uses exact rational arithmetic, not floating point, so rounding is not modelled.
- GraphQL ID parsing: keys are natural numbers. A malformed ID string is not modelled.
- The current user comes from the request session. It is a parameter, and authentication itself is not modelled.

=== FILE: properties.dfy ===
/** Properties relating the schema's operations to each other and to the
    store invariant. */
module Properties {
  import opened Wrappers
  import opened Store
  import opened Schema

  // ---------------------------------------------------------------------
  // The admin flag and the assignment gate

  /** The server's assignment gate admits exactly the organization's admin,
      plus everybody when the organization has no owner. */
  lemma AssignGateIsAdminOrUnowned(org: Organization, caller: Option<Id>)
    ensures MayAssign(org, caller) <==> IsAdmin(org, caller) || org.owner.None?
    ensures IsAdmin(org, caller) ==> MayAssign(org, caller)
  {
  }

  /** In an organization without owner nobody is admin, yet any request,
      anonymous ones included, may assign its tasks. */
  lemma AnyoneMayAssignInOwnerlessOrganization(st: State, caller: Option<Id>, taskId: Id, u: TaskUpdate)
    requires taskId in st.tasks && u.assigneeEmail.Some?
    requires OrganizationOfTask(st, st.tasks[taskId]).Ok?
    requires OrganizationOfTask(st, st.tasks[taskId]).value.owner.None?
    ensures ResolveIsAdmin(st, OrganizationOfTask(st, st.tasks[taskId]).value, caller) == Ok(false)
    ensures UpdateTask(st, caller, taskId, u).result.Ok?
  {
  }

  // ---------------------------------------------------------------------
  // UpdateTask

  /** Applying the same field update twice gives the same task as once. */
  lemma ApplyUpdateIdempotent(t: Task, u: TaskUpdate)
    ensures ApplyUpdate(ApplyUpdate(t, u), u) == ApplyUpdate(t, u)
  {
  }

  /** Repeating a successful updateTask with the same arguments succeeds
      again and changes nothing further. */
  lemma UpdateTaskIdempotent(st: State, caller: Option<Id>, taskId: Id, u: TaskUpdate)
    ensures var r := UpdateTask(st, caller, taskId, u);
            r.result.Ok? ==> UpdateTask(r.state, caller, taskId, u) == r
  {
  }

  /** A non-owner's assignment in an owned organization is refused and the
      store is left as it was; the refusal is the admin-only error unless the
      owner key itself names no stored user. */
  lemma NonOwnerAssignmentRefused(st: State, caller: Option<Id>, taskId: Id, u: TaskUpdate)
    requires taskId in st.tasks && u.assigneeEmail.Some?
    requires OrganizationOfTask(st, st.tasks[taskId]).Ok?
    requires OrganizationOfTask(st, st.tasks[taskId]).value.owner.Some?
    requires !IsAdmin(OrganizationOfTask(st, st.tasks[taskId]).value, caller)
    ensures UpdateTask(st, caller, taskId, u)
              == Reply(st, Err(if OrganizationOfTask(st, st.tasks[taskId]).value.owner.value in st.users
                               then Raised(AdminOnly)
                               else DoesNotExist(UserTable)))
  {
  }

  /** updateTask never moves a task between projects, so no project's task
      count changes. */
  lemma UpdateTaskKeepsTaskCounts(st: State, caller: Option<Id>, taskId: Id, u: TaskUpdate, p: Id)
    ensures TaskCount(UpdateTask(st, caller, taskId, u).state, p) == TaskCount(st, p)
  {
    var r := UpdateTask(st, caller, taskId, u);
    assert TasksOf(r.state, p) == TasksOf(st, p);
  }

  /** Setting a task's status to DONE never lowers the completion rate of
      any project. */
  lemma {:induction false} MarkingDoneNeverLowersCompletion(st: State, caller: Option<Id>, taskId: Id, u: TaskUpdate, p: Id)
    requires u.status == Some(Done)
    ensures CompletionRate(UpdateTask(st, caller, taskId, u).state, p) >= CompletionRate(st, p)
  {
    var r := UpdateTask(st, caller, taskId, u);
    if r.result.Ok? {
      assert TasksOf(r.state, p) == TasksOf(st, p);
      assert DoneTasksOf(st, p) <= DoneTasksOf(r.state, p);
      SubsetCardinality(DoneTasksOf(st, p), DoneTasksOf(r.state, p));
      var total := TaskCount(st, p);
      if total > 0 {
        var d0 := |DoneTasksOf(st, p)| as real;
        var d1 := |DoneTasksOf(r.state, p)| as real;
        assert d0 <= d1;
        assert d0 / total as real <= d1 / total as real;
      }
    }
  }

  /** An update that supplies no status, or an empty one, leaves every project's
      completion rate unchanged. */
  lemma UpdateWithoutStatusKeepsCompletion(st: State, caller: Option<Id>, taskId: Id, u: TaskUpdate, p: Id)
    requires u.status.None? || u.status == Some("")
    ensures CompletionRate(UpdateTask(st, caller, taskId, u).state, p) == CompletionRate(st, p)
  {
    var r := UpdateTask(st, caller, taskId, u);
    assert TasksOf(r.state, p) == TasksOf(st, p);
    assert DoneTasksOf(r.state, p) == DoneTasksOf(st, p);
  }

  // ---------------------------------------------------------------------
  // AddComment

  /** Commenting changes no project's task count or completion rate. */
  lemma AddCommentKeepsCompletion(st: State, caller: Option<Id>, taskId: Id, content: string, p: Id)
    ensures var r := AddComment(st, caller, taskId, content);
            TaskCount(r.state, p) == TaskCount(st, p) && CompletionRate(r.state, p) == CompletionRate(st, p)
  {
    var r := AddComment(st, caller, taskId, content);
    assert TasksOf(r.state, p) == TasksOf(st, p);
    assert DoneTasksOf(r.state, p) == DoneTasksOf(st, p);
  }

  /** Comments are append-only: two successful comments on a task keep the
      earlier comments and add both, in order. */
  lemma CommentsAccumulateInOrder(st: State, a: Id, b: Id, taskId: Id, first: string, second: string)
    ensures var r1 := AddComment(st, Some(a), taskId, first);
            var r2 := AddComment(r1.state, Some(b), taskId, second);
            taskId in st.tasks ==>
              && r2.result.Ok?
              && r2.state.tasks[taskId].comments
                   == st.tasks[taskId].comments + [Comment(first, a), Comment(second, b)]
  {
  }

  // ---------------------------------------------------------------------
  // Register, CreateProject and resolve_project

  /** Registering the same username twice is refused the second time, and
      the second attempt changes nothing. */
  lemma RegisterTwiceRefused(st: State, username: string, email: string, email2: string,
                             orgName: string, orgName2: string, slugify: string -> string)
    ensures var r1 := Register(st, username, email, orgName, slugify);
            r1.result.Ok? ==>
              Register(r1.state, username, email2, orgName2, slugify) == Reply(r1.state, Err(Raised(UsernameTaken)))
  {
    var r1 := Register(st, username, email, orgName, slugify);
    if r1.result.Ok? {
      assert r1.state.users[r1.result.value.user].username == username;
      assert UsernameInUse(r1.state, username);
    }
  }

  /** A freshly registered user can open every project of the organization
      they joined. */
  lemma RegisteredUserSeesOrganizationProjects(st: State, username: string, email: string,
                                               orgName: string, slugify: string -> string, p: Id)
    ensures var r := Register(st, username, email, orgName, slugify);
            r.result.Ok? && p in r.state.projects && r.state.projects[p].organization == r.result.value.organization ==>
              ResolveProject(r.state, Some(r.result.value.user), p) == Ok(Some(r.state.projects[p]))
  {
  }

  /** A project just created is visible to exactly the members of its
      organization. */
  lemma CreatedProjectVisibleToMembers(st: State, orgSlug: string, name: string, description: string,
                                       dueDate: Option<string>, caller: Id)
    ensures var r := CreateProject(st, orgSlug, name, description, dueDate);
            r.result.Ok? ==>
              var p := r.result.value;
              var org := st.organizations[r.state.projects[p].organization];
              && (caller in org.members ==> ResolveProject(r.state, Some(caller), p) == Ok(Some(r.state.projects[p])))
              && (caller !in org.members ==> ResolveProject(r.state, Some(caller), p) == Err(Raised(AccessDenied)))
  {
  }

  // ---------------------------------------------------------------------
  // The store invariant

  /** In a valid store a slug never matches two organizations, so
      registration fails only on a username that is empty or already in
      use. */
  lemma ValidRegisterFailsOnlyOnUsername(st: State, username: string, email: string,
                                         orgName: string, slugify: string -> string)
    requires Valid(st)
    ensures Register(st, username, email, orgName, slugify).result.Ok? <==> !UsernameInUse(st, username) && username != ""
  {
  }

  /** In a valid store an existing task's update fails only at the
      assignment gate. */
  lemma ValidUpdateFailsOnlyAtGate(st: State, caller: Option<Id>, taskId: Id, u: TaskUpdate)
    requires Valid(st) && taskId in st.tasks
    ensures var r := UpdateTask(st, caller, taskId, u);
            r.result.Err? ==> r.result.error == Raised(AdminOnly) && u.assigneeEmail.Some?
  {
  }

  /** Registration adds a user whose username was unused. */
  lemma RegisterKeepsUsernamesUnique(st: State, username: string, email: string,
                                     orgName: string, slugify: string -> string)
    requires UniqueUsernames(st)
    ensures UniqueUsernames(Register(st, username, email, orgName, slugify).state)
  {
  }

  /** Registration creates an organization only for a slug no organization
      has, so slugs stay unique. */
  lemma RegisterKeepsSlugsUnique(st: State, username: string, email: string,
                                 orgName: string, slugify: string -> string)
    requires UniqueSlugs(st)
    ensures UniqueSlugs(Register(st, username, email, orgName, slugify).state)
  {
  }

  /** Adding a user row breaks no foreign key. */
  lemma AddUserKeepsReferences(st: State, k: Id, u: User)
    requires ReferencesResolve(st)
    ensures ReferencesResolve(st.(users := st.users[k := u]))
  {
  }

  /** Storing an organization whose owner and members are users breaks no
      foreign key. */
  lemma PutOrganizationKeepsReferences(st: State, k: Id, org: Organization)
    requires ReferencesResolve(st)
    requires org.members <= st.users.Keys
    requires org.owner.Some? ==> org.owner.value in st.users
    ensures ReferencesResolve(st.(organizations := st.organizations[k := org]))
  {
  }

  /** Registration keeps foreign keys resolving: the new organization's
      owner and member is the new user. */
  lemma RegisterKeepsReferences(st: State, username: string, email: string,
                                orgName: string, slugify: string -> string)
    requires ReferencesResolve(st)
    ensures ReferencesResolve(Register(st, username, email, orgName, slugify).state)
  {
    if !UsernameInUse(st, username) {
      var user := FreshKey(st.users.Keys);
      var withUser := st.(users := st.users[user := User(username, email)]);
      AddUserKeepsReferences(st, user, User(username, email));
      var slug := slugify(orgName);
      match OrganizationBySlug(withUser, slug)
      case Ok(o) =>
        var org := withUser.organizations[o];
        PutOrganizationKeepsReferences(withUser, o, org.(members := org.members + {user}));
      case Err(DoesNotExist(_)) =>
        var o := FreshKey(withUser.organizations.Keys);
        PutOrganizationKeepsReferences(withUser, o, Organization(orgName, slug, Some(user), {user}));
      case Err(_) =>
    }
  }

  /** Registration keeps the store valid. */
  lemma RegisterPreservesValid(st: State, username: string, email: string,
                               orgName: string, slugify: string -> string)
    requires Valid(st)
    ensures Valid(Register(st, username, email, orgName, slugify).state)
  {
    RegisterKeepsUsernamesUnique(st, username, email, orgName, slugify);
    RegisterKeepsSlugsUnique(st, username, email, orgName, slugify);
    RegisterKeepsReferences(st, username, email, orgName, slugify);
  }

  /** Creating a project keeps the store valid. */
  lemma CreateProjectPreservesValid(st: State, orgSlug: string, name: string, description: string,
                                    dueDate: Option<string>)
    requires Valid(st)
    ensures Valid(CreateProject(st, orgSlug, name, description, dueDate).state)
  {
  }

  /** Updating a task keeps the store valid. */
  lemma UpdateTaskPreservesValid(st: State, caller: Option<Id>, taskId: Id, u: TaskUpdate)
    requires Valid(st)
    ensures Valid(UpdateTask(st, caller, taskId, u).state)
  {
  }

  /** Commenting keeps the store valid when an authenticated caller is a
      stored user, as a session's user always is. */
  lemma AddCommentPreservesValid(st: State, caller: Option<Id>, taskId: Id, content: string)
    requires Valid(st)
    requires caller.Some? ==> caller.value in st.users
    ensures Valid(AddComment(st, caller, taskId, content).state)
  {
  }
}

=== FILE: schema.dfy ===
/** The GraphQL resolvers and mutations of the task board, each a pure
    transition over the store. The current user is `caller`: `None` stands
    for an anonymous (unauthenticated) request. */
module Schema {
  import opened Wrappers
  import opened Store

  const NotLoggedIn := "Not logged in"
  const AccessDenied := "Access Denied"
  const UsernameTaken := "Username already exists"
  const AdminOnly := "Only the Organization Admin can assign tasks."
  const LoginToComment := "You must be logged in to comment."
  /** The message `create_user` raises for an empty username. */
  const UsernameRequired := "The given username must be set"

  /** The status value counted as completed. */
  const Done := "DONE"

  /** The store after a mutation, together with what the mutation returned
      or raised. A raised exception still leaves whatever was saved before
      it. */
  datatype Reply<T> = Reply(state: State, result: Result<T, Error>)

  // ---------------------------------------------------------------------
  // OrganizationType.resolve_is_admin

  /** The admin flag: the caller is the organization's owner. An anonymous
      user never equals a stored user, so an organization without owner has
      no admin. */
  predicate IsAdmin(org: Organization, caller: Option<Id>) {
    caller.Some? && org.owner == caller
  }

  /** The is_admin field: reading the owner raises DoesNotExist when the
      owner key names no stored user; otherwise the flag is set exactly for
      a caller the assignment gate admits in an organization that has an
      owner, so an anonymous caller is never admin. */
  function ResolveIsAdmin(st: State, org: Organization, caller: Option<Id>): (r: Result<bool, Error>)
    ensures r.Err? <==> org.owner.Some? && org.owner.value !in st.users
    ensures r.Err? ==> r.error == DoesNotExist(UserTable)
    ensures r.Ok? ==> (r.value <==> org.owner.Some? && MayAssign(org, caller))
    ensures r == Ok(true) ==> caller.Some?
  {
    if org.owner.Some? && org.owner.value !in st.users then Err(DoesNotExist(UserTable))
    else Ok(IsAdmin(org, caller))
  }

  // ---------------------------------------------------------------------
  // ProjectType.resolve_task_count / resolve_completion_rate

  /** The tasks of project `p` (its `tasks` reverse relation). */
  function TasksOf(st: State, p: Id): set<Id> {
    set t | t in st.tasks && st.tasks[t].project == p
  }

  /** The tasks of project `p` whose status is DONE. */
  function DoneTasksOf(st: State, p: Id): (done: set<Id>)
    ensures done <= TasksOf(st, p)
  {
    set t | t in st.tasks && st.tasks[t].project == p && st.tasks[t].status == Done
  }

  /** The task_count field: how many stored tasks belong to project `p`. */
  function TaskCount(st: State, p: Id): (n: nat)
    ensures n <= |st.tasks.Keys|
    ensures n == 0 <==> forall t :: t in st.tasks ==> st.tasks[t].project != p
    ensures n == |st.tasks.Keys| <==> forall t :: t in st.tasks ==> st.tasks[t].project == p
  {
    var mine := TasksOf(st, p);
    SubsetCardinality(mine, st.tasks.Keys);
    assert forall t :: t in st.tasks && st.tasks[t].project == p ==> t in mine;
    assert mine == {} <==> forall t :: t in st.tasks ==> st.tasks[t].project != p;
    assert mine == st.tasks.Keys <==> forall t :: t in st.tasks ==> st.tasks[t].project == p;
    |mine|
  }

  /** A fraction of a positive whole lies in [0, 1], and is 1 exactly
      for the whole and 0 exactly for nothing. */
  lemma RatioBounds(d: real, n: real)
    requires 0.0 <= d <= n && 0.0 < n
    ensures 0.0 <= d / n <= 1.0
    ensures d / n == 1.0 <==> d == n
    ensures d / n == 0.0 <==> d == 0.0
  {
    assert d / n == d * (1.0 / n);
    assert 1.0 - d / n == (n - d) * (1.0 / n);
  }

  /** The percentage of a project's tasks that are DONE, exactly (the
      resolver computes it in floating point). */
  function CompletionRate(st: State, p: Id): (rate: real)
    ensures 0.0 <= rate <= 100.0
    ensures TaskCount(st, p) == 0 ==> rate == 0.0
    ensures rate == 100.0 <==> TaskCount(st, p) > 0 && forall t :: t in TasksOf(st, p) ==> st.tasks[t].status == Done
    ensures rate == 0.0 <==> forall t :: t in TasksOf(st, p) ==> st.tasks[t].status != Done
  {
    var total := TaskCount(st, p);
    if total == 0 then 0.0
    else
      var done := DoneTasksOf(st, p);
      SubsetCardinality(done, TasksOf(st, p));
      assert done == TasksOf(st, p) <==> forall t :: t in TasksOf(st, p) ==> st.tasks[t].status == Done;
      assert forall t :: t in TasksOf(st, p) && st.tasks[t].status == Done ==> t in done;
      assert done == {} <==> forall t :: t in TasksOf(st, p) ==> st.tasks[t].status != Done;
      var d, n := |done| as real, total as real;
      RatioBounds(d, n);
      (d / n) * 100.0
  }

  // ---------------------------------------------------------------------
  // Query.resolve_project

  /** The project with key `p` if the caller may see it: anonymous callers
      are refused, a missing project gives no project and no error, and a
      caller outside the project's organization is refused. */
  function ResolveProject(st: State, caller: Option<Id>, p: Id): (r: Result<Option<Project>, Error>)
    ensures caller.None? ==> r == Err(Raised(NotLoggedIn))
    ensures caller.Some? && p !in st.projects ==> r == Ok(None)
    ensures r.Ok? && r.value.Some? ==>
              && p in st.projects
              && r.value.value == st.projects[p]
              && st.projects[p].organization in st.organizations
              && caller.Some?
              && caller.value in st.organizations[st.projects[p].organization].members
    ensures caller.Some? && p in st.projects && st.projects[p].organization in st.organizations ==>
              r == (if caller.value in st.organizations[st.projects[p].organization].members
                    then Ok(Some(st.projects[p]))
                    else Err(Raised(AccessDenied)))
    ensures caller.Some? && p in st.projects && st.projects[p].organization !in st.organizations ==>
              r == Err(DoesNotExist(OrganizationTable))
    ensures r.Err? ==> r.error in {Raised(NotLoggedIn), Raised(AccessDenied), DoesNotExist(OrganizationTable)}
  {
    if caller.None? then Err(Raised(NotLoggedIn))
    else if p !in st.projects then Ok(None)
    else
      var project := st.projects[p];
      if project.organization !in st.organizations then Err(DoesNotExist(OrganizationTable))
      else if caller.value !in st.organizations[project.organization].members then Err(Raised(AccessDenied))
      else Ok(Some(project))
  }

  // ---------------------------------------------------------------------
  // Register.mutate

  /** What Register returns: the new user and the organization joined. */
  datatype Registration = Registration(user: Id, organization: Id)

  /** Some stored user already has this username. */
  predicate UsernameInUse(st: State, username: string) {
    exists u :: u in st.users && st.users[u].username == username
  }

  /** Registers a user and makes them a member of the organization whose
      slug is `slugify(organizationName)`, creating it with the new user as
      owner when there is none. `slugify` is the framework's slug function,
      taken as a parameter. `create_user` refuses an empty username. The
      user row is saved before the organization lookup, so an ambiguous
      slug leaves the new user behind. */
  function Register(st: State, username: string, email: string, organizationName: string,
                    slugify: string -> string): (r: Reply<Registration>)
    ensures UsernameInUse(st, username) ==> r == Reply(st, Err(Raised(UsernameTaken)))
    ensures !UsernameInUse(st, username) && username == "" ==> r == Reply(st, Err(Raised(UsernameRequired)))
    ensures r.result.Ok? <==>
              && !UsernameInUse(st, username)
              && username != ""
              && OrganizationBySlug(st, slugify(organizationName)) != Err(MultipleObjectsReturned(OrganizationTable))
    ensures r.result.Err? && !UsernameInUse(st, username) && username != "" ==>
              && r.result.error == MultipleObjectsReturned(OrganizationTable)
              && FreshKey(st.users.Keys) !in st.users
              && r.state == st.(users := st.users[FreshKey(st.users.Keys) := User(username, email)])
    ensures r.result.Ok? ==>
              var reg := r.result.value;
              && reg.user !in st.users
              && r.state.users == st.users[reg.user := User(username, email)]
              && r.state.projects == st.projects
              && r.state.tasks == st.tasks
              && reg.organization in r.state.organizations
              && r.state.organizations.Keys == st.organizations.Keys + {reg.organization}
              && (forall o :: o in st.organizations && o != reg.organization ==> r.state.organizations[o] == st.organizations[o])
              && r.state.organizations[reg.organization].slug == slugify(organizationName)
              && reg.user in r.state.organizations[reg.organization].members
    ensures r.result.Ok? && r.result.value.organization in st.organizations ==>
              var joined := st.organizations[r.result.value.organization];
              r.state.organizations[r.result.value.organization]
                == joined.(members := joined.members + {r.result.value.user})
    ensures r.result.Ok? && r.result.value.organization !in st.organizations ==>
              forall o :: o in st.organizations ==> st.organizations[o].slug != slugify(organizationName)
    ensures r.result.Ok? && r.result.value.organization !in st.organizations ==>
              var reg := r.result.value;
              r.state.organizations[reg.organization]
                == Organization(organizationName, slugify(organizationName), Some(reg.user), {reg.user})
  {
    if UsernameInUse(st, username) then Reply(st, Err(Raised(UsernameTaken)))
    else if username == "" then Reply(st, Err(Raised(UsernameRequired)))
    else
      var user := FreshKey(st.users.Keys);
      var withUser := st.(users := st.users[user := User(username, email)]);
      var slug := slugify(organizationName);
      match OrganizationBySlug(withUser, slug)
      case Ok(o) =>
        var org := withUser.organizations[o];
        Reply(withUser.(organizations := withUser.organizations[o := org.(members := org.members + {user})]),
              Ok(Registration(user, o)))
      case Err(DoesNotExist(_)) =>
        var o := FreshKey(withUser.organizations.Keys);
        Reply(withUser.(organizations := withUser.organizations[o := Organization(organizationName, slug, Some(user), {user})]),
              Ok(Registration(user, o)))
      case Err(e) =>
        Reply(withUser, Err(e))
  }

  // ---------------------------------------------------------------------
  // CreateProject.mutate

  /** The due date stored for a project: an empty string means none. */
  function NormalizeDueDate(dueDate: Option<string>): (d: Option<string>)
    ensures d.Some? <==> dueDate.Some? && dueDate.value != ""
    ensures d.Some? ==> d == dueDate
  {
    if dueDate == Some("") then None else dueDate
  }

  /** Creates a project in the organization with slug `orgSlug`. No
      authentication or membership is checked. An omitted description is
      passed as "". */
  function CreateProject(st: State, orgSlug: string, name: string, description: string,
                         dueDate: Option<string>): (r: Reply<Id>)
    ensures r.result.Err? ==> r.state == st
    ensures r.result.Err? <==> OrganizationBySlug(st, orgSlug).Err?
    ensures r.result.Err? ==> r.result.error == OrganizationBySlug(st, orgSlug).error
    ensures r.result.Ok? ==>
              var p := r.result.value;
              && p !in st.projects
              && p in r.state.projects
              && r.state == st.(projects := st.projects[p := r.state.projects[p]])
              && r.state.projects[p].organization in st.organizations
              && st.organizations[r.state.projects[p].organization].slug == orgSlug
              && r.state.projects[p].name == name
              && r.state.projects[p].description == description
              && (r.state.projects[p].dueDate.Some? <==> dueDate.Some? && dueDate.value != "")
              && (r.state.projects[p].dueDate.Some? ==> r.state.projects[p].dueDate == dueDate)
  {
    match OrganizationBySlug(st, orgSlug)
    case Err(e) => Reply(st, Err(e))
    case Ok(o) =>
      var p := FreshKey(st.projects.Keys);
      Reply(st.(projects := st.projects[p := Project(o, name, description, NormalizeDueDate(dueDate))]), Ok(p))
  }

  // ---------------------------------------------------------------------
  // UpdateTask.mutate

  /** The optional arguments of updateTask; `None` is an omitted argument. */
  datatype TaskUpdate = TaskUpdate(
    status: Option<string>,
    description: Option<string>,
    assigneeEmail: Option<string>,
    dueDate: Option<string>)

  /** The assignment gate: refused only when the organization has an owner
      and the caller is not that owner. */
  predicate MayAssign(org: Organization, caller: Option<Id>) {
    !(org.owner.Some? && org.owner != caller)
  }

  /** Fields updateTask never writes. */
  predicate KeepsFixedFields(before: Task, after: Task) {
    && after.project == before.project
    && after.title == before.title
    && after.comments == before.comments
  }

  /** Fields the update did not supply keep their value; an empty status
      counts as not supplied. */
  predicate KeepsUnsuppliedFields(before: Task, after: Task, u: TaskUpdate) {
    && (u.status.None? || u.status == Some("") ==> after.status == before.status)
    && (u.description.None? ==> after.description == before.description)
    && (u.assigneeEmail.None? ==> after.assigneeEmail == before.assigneeEmail)
    && (u.dueDate.None? ==> after.dueDate == before.dueDate)
  }

  /** Supplied fields take the supplied value; an empty due date clears the
      date. */
  predicate WritesSuppliedFields(after: Task, u: TaskUpdate) {
    && (u.status.Some? && u.status.value != "" ==> after.status == u.status.value)
    && (u.description.Some? ==> after.description == u.description.value)
    && (u.assigneeEmail.Some? ==> after.assigneeEmail == u.assigneeEmail)
    && (u.dueDate == Some("") ==> after.dueDate == None)
    && (u.dueDate.Some? && u.dueDate.value != "" ==> after.dueDate == u.dueDate)
  }

  /** The task after the field assignments of updateTask. */
  function ApplyUpdate(t: Task, u: TaskUpdate): (r: Task)
    ensures KeepsFixedFields(t, r)
    ensures KeepsUnsuppliedFields(t, r, u)
    ensures WritesSuppliedFields(r, u)
  {
    var withAssignee := if u.assigneeEmail.Some? then t.(assigneeEmail := u.assigneeEmail) else t;
    var statused := if u.status.Some? && u.status.value != "" then withAssignee.(status := u.status.value) else withAssignee;
    var described := if u.description.Some? then statused.(description := u.description.value) else statused;
    if u.dueDate.Some? then described.(dueDate := NormalizeDueDate(u.dueDate)) else described
  }

  /** Updates the supplied fields of task `taskId`. Only assignment is
      permission-checked; the check happens before anything is written.
      Following the task to its organization's owner raises DoesNotExist
      for whichever key names no stored row. */
  function UpdateTask(st: State, caller: Option<Id>, taskId: Id, u: TaskUpdate): (r: Reply<Task>)
    ensures r.result.Err? ==> r.state == st
    ensures taskId !in st.tasks ==> r.result == Err(DoesNotExist(TaskTable))
    ensures taskId in st.tasks && u.assigneeEmail.None? ==> r.result.Ok?
    ensures taskId in st.tasks && u.assigneeEmail.Some? ==>
              match OrganizationOfTask(st, st.tasks[taskId])
              case Ok(org) =>
                if org.owner.Some? && org.owner.value !in st.users then
                  r.result == Err(DoesNotExist(UserTable))
                else
                  && (r.result.Ok? <==> IsAdmin(org, caller) || org.owner.None?)
                  && (r.result.Err? ==> r.result.error == Raised(AdminOnly))
              case Err(e) => r.result == Err(e)
    ensures r.result.Ok? ==>
              && taskId in st.tasks
              && r.state == st.(tasks := st.tasks[taskId := r.result.value])
              && KeepsFixedFields(st.tasks[taskId], r.result.value)
              && KeepsUnsuppliedFields(st.tasks[taskId], r.result.value, u)
              && WritesSuppliedFields(r.result.value, u)
  {
    if taskId !in st.tasks then Reply(st, Err(DoesNotExist(TaskTable)))
    else
      var t := st.tasks[taskId];
      if u.assigneeEmail.Some? && OrganizationOfTask(st, t).Err? then
        Reply(st, Err(OrganizationOfTask(st, t).error))
      else if u.assigneeEmail.Some? && ResolveIsAdmin(st, OrganizationOfTask(st, t).value, caller).Err? then
        Reply(st, Err(DoesNotExist(UserTable)))
      else if u.assigneeEmail.Some? && !MayAssign(OrganizationOfTask(st, t).value, caller) then
        Reply(st, Err(Raised(AdminOnly)))
      else
        var t' := ApplyUpdate(t, u);
        Reply(st.(tasks := st.tasks[taskId := t']), Ok(t'))
  }

  // ---------------------------------------------------------------------
  // AddComment.mutate

  /** Appends a comment by the caller to task `taskId`; anonymous callers
      are refused before the task is looked up. */
  function AddComment(st: State, caller: Option<Id>, taskId: Id, content: string): (r: Reply<Comment>)
    ensures r.result.Err? ==> r.state == st
    ensures caller.None? ==> r.result == Err(Raised(LoginToComment))
    ensures caller.Some? ==> (r.result.Ok? <==> taskId in st.tasks)
    ensures caller.Some? && taskId !in st.tasks ==> r.result == Err(DoesNotExist(TaskTable))
    ensures r.result.Ok? ==>
              && caller.Some?
              && taskId in st.tasks
              && r.result.value == Comment(content, caller.value)
              && r.state.users == st.users
              && r.state.organizations == st.organizations
              && r.state.projects == st.projects
              && r.state.tasks.Keys == st.tasks.Keys
              && (forall t :: t in st.tasks && t != taskId ==> r.state.tasks[t] == st.tasks[t])
              && r.state.tasks[taskId].comments == st.tasks[taskId].comments + [Comment(content, caller.value)]
              && r.state.tasks[taskId] == st.tasks[taskId].(comments := r.state.tasks[taskId].comments)
  {
    if caller.None? then Reply(st, Err(Raised(LoginToComment)))
    else if taskId !in st.tasks then Reply(st, Err(DoesNotExist(TaskTable)))
    else
      var t := st.tasks[taskId];
      var c := Comment(content, caller.value);
      Reply(st.(tasks := st.tasks[taskId := t.(comments := t.comments + [c])]), Ok(c))
  }
}

=== FILE: store.dfy ===
/** The persistent data of the task board: users, organizations, projects and
    tasks, held as maps from primary key to row, with the lookups the schema
    performs through the ORM. */
module Store {
  import opened Wrappers

  /** A primary key, as an auto-increment sequence hands it out. */
  type Id = nat

  /** A Django user; only the columns the schema reads or writes. */
  datatype User = User(username: string, email: string)

  /** An organization: `owner` is a nullable reference to a user. */
  datatype Organization = Organization(
    name: string,
    slug: string,
    owner: Option<Id>,
    members: set<Id>)

  /** A project belongs to one organization. */
  datatype Project = Project(
    organization: Id,
    name: string,
    description: string,
    dueDate: Option<string>)

  /** A comment on a task, written by `author`. */
  datatype Comment = Comment(content: string, author: Id)

  /** A task of a project; status is an unvalidated string, comments are
      kept in creation order. */
  datatype Task = Task(
    project: Id,
    title: string,
    status: string,
    description: string,
    assigneeEmail: Option<string>,
    dueDate: Option<string>,
    comments: seq<Comment>)

  datatype State = State(
    users: map<Id, User>,
    organizations: map<Id, Organization>,
    projects: map<Id, Project>,
    tasks: map<Id, Task>)

  /** The tables a lookup can fail on. */
  datatype Table = UserTable | OrganizationTable | ProjectTable | TaskTable

  /** What an operation can raise: the ORM's two lookup errors, or an
      exception the schema raises itself with the given message. */
  datatype Error =
    | DoesNotExist(table: Table)
    | MultipleObjectsReturned(table: Table)
    | Raised(message: string)

  /** A largest element of a non-empty finite set of keys. */
  lemma {:induction false} LargestKey(keys: set<Id>) returns (m: Id)
    requires keys != {}
    ensures m in keys
    ensures forall j :: j in keys ==> j <= m
  {
    var x :| x in keys;
    var rest := keys - {x};
    if rest == {} {
      m := x;
      forall j | j in keys ensures j <= m {
        assert j !in rest;
      }
    } else {
      var below := LargestKey(rest);
      m := if x <= below then below else x;
      forall j | j in keys ensures j <= m {
        if j != x {
          assert j in rest;
        }
      }
    }
  }

  /** Every non-empty finite set of keys has a largest element. */
  lemma LargestKeyExists(keys: set<Id>)
    requires keys != {}
    ensures exists m :: m in keys && forall j :: j in keys ==> j <= m
  {
    var m := LargestKey(keys);
  }

  /** A subset of a finite set is no larger, and equally large only when
      it is the whole set. */
  lemma {:induction false} SubsetCardinality(a: set<Id>, b: set<Id>)
    requires a <= b
    ensures |a| <= |b|
    ensures |a| == |b| ==> a == b
  {
    assert b == a + (b - a);
    assert a !! (b - a);
    assert |b| == |a| + |b - a|;
    if |a| == |b| {
      assert |b - a| == 0;
      assert b - a == {};
    }
  }

  /** The key the database gives the next inserted row: one past the largest
      key in use, so it is fresh and larger than every existing key. */
  function FreshKey(keys: set<Id>): (k: Id)
    ensures k !in keys
    ensures forall j :: j in keys ==> j < k
  {
    if keys == {} then 1
    else
      LargestKeyExists(keys);
      var m :| m in keys && forall j :: j in keys ==> j <= m;
      m + 1
  }

  /** A set with exactly one element holds nothing else. */
  lemma SingletonHasOneElement(s: set<Id>)
    requires |s| == 1
    ensures forall a, b :: a in s && b in s ==> a == b
  {
    var x :| x in s;
    assert |s - {x}| == 0;
    assert s - {x} == {};
  }

  /** `Organization.objects.get(slug=slug)`: the one organization with that
      slug, or DoesNotExist when there is none, or MultipleObjectsReturned
      when there are several. */
  function OrganizationBySlug(st: State, slug: string): (r: Result<Id, Error>)
    ensures r.Ok? ==> r.value in st.organizations && st.organizations[r.value].slug == slug
    ensures r.Ok? ==> forall o :: o in st.organizations && st.organizations[o].slug == slug ==> o == r.value
    ensures r == Err(DoesNotExist(OrganizationTable)) <==>
              forall o :: o in st.organizations ==> st.organizations[o].slug != slug
    ensures r == Err(MultipleObjectsReturned(OrganizationTable)) <==>
              exists a, b :: && a in st.organizations && b in st.organizations && a != b
                             && st.organizations[a].slug == slug && st.organizations[b].slug == slug
    ensures r.Err? ==> r.error in {DoesNotExist(OrganizationTable), MultipleObjectsReturned(OrganizationTable)}
  {
    var matches := set o | o in st.organizations && st.organizations[o].slug == slug;
    assert forall o :: o in st.organizations && st.organizations[o].slug == slug ==> o in matches;
    if |matches| == 0 then
      Err(DoesNotExist(OrganizationTable))
    else if |matches| == 1 then
      SingletonHasOneElement(matches);
      var o :| o in matches;
      Ok(o)
    else
      var o :| o in matches;
      assert |matches - {o}| > 0;
      var p :| p in matches - {o};
      Err(MultipleObjectsReturned(OrganizationTable))
  }

  /** The organization a task belongs to, following the project's foreign
      key and then the organization's; a dangling reference raises
      DoesNotExist for the missing table. */
  function OrganizationOfTask(st: State, t: Task): (r: Result<Organization, Error>)
    ensures r.Ok? <==> t.project in st.projects && st.projects[t.project].organization in st.organizations
    ensures t.project !in st.projects ==> r == Err(DoesNotExist(ProjectTable))
    ensures t.project in st.projects && st.projects[t.project].organization !in st.organizations ==>
              r == Err(DoesNotExist(OrganizationTable))
    ensures r.Ok? ==> r.value == st.organizations[st.projects[t.project].organization]
  {
    if t.project !in st.projects then Err(DoesNotExist(ProjectTable))
    else if st.projects[t.project].organization !in st.organizations then Err(DoesNotExist(OrganizationTable))
    else Ok(st.organizations[st.projects[t.project].organization])
  }

  /** Every foreign key resolves: tasks to projects, projects to
      organizations, organization owners and members to users. */
  ghost predicate ReferencesResolve(st: State) {
    && (forall t :: t in st.tasks ==> st.tasks[t].project in st.projects)
    && (forall p :: p in st.projects ==> st.projects[p].organization in st.organizations)
    && (forall o :: o in st.organizations ==> st.organizations[o].members <= st.users.Keys)
    && (forall o :: o in st.organizations && st.organizations[o].owner.Some? ==>
          st.organizations[o].owner.value in st.users)
  }

  /** No two users share a username. */
  ghost predicate UniqueUsernames(st: State) {
    forall a, b :: a in st.users && b in st.users && st.users[a].username == st.users[b].username ==> a == b
  }

  /** No two organizations share a slug. */
  ghost predicate UniqueSlugs(st: State) {
    forall a, b ::
      a in st.organizations && b in st.organizations && st.organizations[a].slug == st.organizations[b].slug
      ==> a == b
  }

  /** Every comment's author is a stored user. */
  ghost predicate AuthorsResolve(st: State) {
    forall t, c :: t in st.tasks && c in st.tasks[t].comments ==> c.author in st.users
  }

  /** The store invariant: referential integrity plus the uniqueness the
      schema's lookups rely on. */
  ghost predicate Valid(st: State) {
    ReferencesResolve(st) && AuthorsResolve(st) && UniqueUsernames(st) && UniqueSlugs(st)
  }
}

=== FILE: wrappers.dfy ===
/** Optional values and error-carrying results, used for nullable columns,
    optional GraphQL arguments and raised exceptions. */
module Wrappers {

  /** A value that may be absent (Python's None, a NULL column). */
  datatype Option<+T> = None | Some(value: T)

  /** Either a value or the error an operation raised instead. */
  datatype Result<+T, +E> = Ok(value: T) | Err(error: E)
}
